=== FILE: README.md ===
# ok_json tokenizer — a Dafny model

This project models the tokenizer of the OK_JSON library (`src/ok_json.c`)
and the data model it fills (`include/ok_json.h`). It proves how the code
actually behaves. The library is a fixed-capacity JSON tokenizer for
constrained targets. A parser object holds:

- a table of 32 token slots;
- a token count;
- a pointer to a NUL-terminated input buffer;
- an integer cursor into that buffer.

The model has four operations:

- `okj_init` binds the buffer and resets cursor and count.
- `okj_skip_whitespace` advances the cursor over `isspace` characters.
- `okj_parse_value` is one scan step. It classifies the character at the
  cursor as object, array, string, number, boolean or null, fills one slot
  and moves the cursor.
- `okj_parse` repeats that step until it meets the terminator or the table
  is full.

The model is functional. The parser is an immutable datatype. The buffer is a
`seq<char>` with no NUL, and its terminator sits implicitly at index `|s|`.
Every read goes through `CLib.At`, which accepts indices up to `|s|` and no
further, so the verifier proves that every read in the scanner stays at or
before the terminator. There is one read the code makes past the
terminator: a string or number that ends at the terminator leaves the cursor
one past it, and the loop test of `okj_parse` then reads that cell. The
model turns that read into the explicit outcome `Driver.Overrun`.

Modules:

- `Wrappers` (wrappers.dfy): `Option`, which stands in for pointers that may be NULL.
- `CLib` (clib.dfy): the NUL-terminated buffer, `isspace`, `isdigit` and `strncmp`.
- `OkJsonHeader` (header.dfy): constants, token kinds, token, parser and status codes.
- `Scanner` (scanner.dfy): `okj_init`, `okj_skip_whitespace` and `okj_parse_value`.
- `Driver` (driver.dfy): `okj_parse`.
- `Scenarios` (scenarios.dfy): the library's test inputs, plus inputs that show the edge cases.

## Behaviour the model pins down

The code is quirky, and the model follows it exactly:

- Object, array, boolean and null tokens consume one character. `true`,
  `false` and `null` are matched as prefixes, so the next step starts on the
  literal's second letter and fails.
- A number consumes a digit or `-` and then the run of digits and `.` after
  it. The character after the run is skipped without being examined. A run
  that ends in `.` is `BadNumber`. In that case the slot's kind is already
  set to Number, but the slot is not counted.
- A string ends at the next `"` or at the terminator. No escape is
  recognised and a missing closing quote is not an error. The recorded
  length is the closing index minus the opening index, so it is the content
  length plus one. `OKJ_MAX_STRING_LEN` is never checked.
- `start` holds the cursor after the scan, not the token's first character.
  For an object, array, boolean or null that is the triggering character.
  For a string it is the closing quote. For a number it is the character
  after the run.
- The scanner writes `length` only for strings and numbers. Other slots keep
  whatever length they held before.
- `}`, `]`, `,` and `:` never produce tokens. Met as the next non-space
  character, each one is a syntax error.
- `okj_parse` returns only Success, BadPointer or ParsingFailed. Every scanner
  error becomes ParsingFailed. The loop stops with Success at the terminator,
  or silently once 32 tokens are read, even if input remains. Because the
  `okj_init` call inside `okj_parse` is commented out, a second call after a
  success changes nothing and returns Success.

## Where the code departs from its tests and header

- The library's test `test_parse_simple_object` (test/ok_json_tests.c:45-66)
  expects Success and the tokens [Object, Number] for `{"key": 42}`. By the
  code, the input yields Object and then String, and the `:` is a syntax
  error. `okj_parse` therefore returns ParsingFailed.
  `Scenarios.SimpleObjectTest` proves this outcome.
- The prototypes in include/ok_json.h:65-69 do not match the definitions in
  src/ok_json.c. The return types of `okj_parse`, `okj_get_string` and
  `okj_get_boolean` differ, and `okj_get_int` is declared but never defined.
  The model follows the definitions.
- No shown file defines `OKJ_SUCCESS`, `OKJ_ERROR_BAD_POINTER`,
  `OKJ_ERROR_SYNTAX`, `OKJ_ERROR_BAD_NUMBER` or `OKJ_ERROR_PARSING_FAILED`,
  nor the type `OkjError`. The model therefore makes them the five
  constructors of `OkJsonHeader.ErrorCode`, with no numeric values.
- The code does less than a complete bounded JSON tokenizer would. It has no
  depth tracking and no delimiter matching. It raises no error for an
  unterminated string, an overlong string or a full table. It does not reset
  the parser on each parse, it counts a quote in string lengths, and it has
  no key lookup. The model adds none of these.

## Model

| member | source | states |
|---|---|---|
| CLib.At | src/ok_json.c:68 | reading the buffer at an index up to its length gives the character there, and the terminator at exactly the length; no read past the terminator is expressible |
| CLib.StrnEqual | src/ok_json.c:142-150 | `strncmp` of the buffer at `i` against a NUL-free literal is zero exactly when the buffer holds the literal there, and its character-by-character walk never reads past the terminator |
| OkJsonHeader.Ordinal | include/ok_json.h:36-45 | each token kind has a value below 7, and value 0 belongs to `OKJ_UNDEFINED` alone |
| OkJsonHeader.FromOrdinal | include/ok_json.h:36-45 | exactly the values 0 to 6 name a token kind |
| OkJsonHeader.OrdinalBijection | include/ok_json.h:36-45 | the seven kinds and the values 0 to 6 correspond one to one, in both directions |
| Scanner.Init | src/ok_json.c:36-45 | with both pointers non-NULL the buffer is bound, cursor and count are 0, the token slots are untouched and the parser is in a valid state; with either pointer NULL nothing changes |
| Scanner.SkipWhitespace | src/ok_json.c:47-56 | the cursor moves to the first non-`isspace` character at or after it; everything skipped is whitespace, and it stops at the terminator at the latest |
| Scanner.StringEnd | src/ok_json.c:93-100 | the string loop stops at the first `"` or the terminator after the opening quote, with no quote in between and no escape handling |
| Scanner.NumberEnd | src/ok_json.c:122-126 | the number loop stops at the first character that is neither a digit nor `.`, having consumed only digits and dots |
| Scanner.Emit | src/ok_json.c:166-182 | a successful step stores the current cursor as `start`, moves the cursor one past it, counts exactly one token, and leaves every other slot alone |
| Scanner.ScanString | src/ok_json.c:84-111 | a string always succeeds, even when unterminated; its length is the distance from the opening quote to the closing quote or terminator, and `start` is that closing point |
| Scanner.ScanNumber | src/ok_json.c:113-137 | a number run ending in `.` is BadNumber: the count is unchanged, the slot changes only its kind to Number, and the cursor is left just after the run of digits and dots that follows the first character; otherwise the length is the characters consumed, `start` is the character after the run, and that character is skipped |
| Scanner.ScanValue | src/ok_json.c:58-188 | one scan step returns Success, Syntax or BadNumber. Success counts exactly one token, which describes the buffer, and moves the cursor strictly forward. Syntax consumes only whitespace and writes nothing. BadNumber changes only the kind of slot `token_count`, to Number. Only slot `token_count` can change. The cursor ends one past the terminator only after a string or number |
| Scanner.ScanSingle | src/ok_json.c:70-83 | `{` and `[` give one-character Object and Array tokens that keep the slot's old length; every other character is passed on to the literal branches |
| Scanner.ScanLiteral | src/ok_json.c:142-164 | the buffer holding `true` or `false` gives a Boolean, `null` a Null, each consuming one character; anything else is Syntax with the cursor left on it and the parser otherwise unchanged |
| Scanner.SingleCharacterTokens | src/ok_json.c:70-177 | `{`, `[` and the prefixes `true`, `false` and `null` give Object, Array, Boolean and Null tokens that consume one character, with `start` on that character and the slot's old length kept |
| Scanner.UnrecognisedIsSyntaxError | src/ok_json.c:66-164 | a step is Syntax exactly when the next non-space character begins no token: it is not `{`, `[`, `"`, `-` or a digit, and the buffer does not hold "true", "false" or "null" there, so words such as `tru` or `nope` are Syntax too; then the cursor sits on that character and the table is unchanged |
| Scanner.ClosersAreSyntaxErrors | src/ok_json.c:157-164 | `}`, `]`, `,` and `:` as the next non-space character give Syntax and no token |
| Scanner.LiteralsHaveNoBoundary | src/ok_json.c:142-156 | after a Boolean or Null token, the next step starts on the literal's second letter and returns Syntax |
| Scanner.StringStep | src/ok_json.c:91-111 | the string token is exactly (String, closing point, closing point minus opening quote), and the cursor ends one past the closing point |
| Scanner.NumberStep | src/ok_json.c:120-137 | the number step returns BadNumber exactly when the last consumed character is `.`; otherwise the token is exactly (Number, end of run, run length), and the cursor ends one past the end of the run |
| Scanner.ScanIgnoresStaleSlots | src/ok_json.c:58-188 | two parsers that agree on buffer, cursor, count and the counted tokens' kind, start and string or number length get the same code from a step and still agree in that way afterwards; stale slot contents never matter |
| Scanner.ScanReadsNoSlot | src/ok_json.c:58-188 | a scan step reads no token slot: from the same buffer, cursor and count, any two parsers get the same code, cursor and count, the same kind in the written slot unless the step is a syntax error, the same start on success, and the same string or number length |
| Driver.Drive | src/ok_json.c:201-212 | the loop keeps the buffer and a valid parser state, and returns Success or ParsingFailed; Success means the cursor is on the terminator or the table is full; a cursor one past the terminator is always an overrun, and an overrun leaves the cursor there |
| Driver.DriveExtends | src/ok_json.c:201-212 | the loop only appends: earlier slots are kept, every counted new slot describes the buffer, the count stays at most 32, and slots past the final count's own slot are never written; it reads past the terminator only when called there or right after a string or number token that ended at the terminator |
| Driver.ScanFailure | src/ok_json.c:66-188 | a scan step that does not succeed leaves a free slot and the cursor at or before the terminator, on a non-space character that begins no token (Syntax) or just after a number run ending in `.` (BadNumber); the slot it failed on keeps its old contents, except that BadNumber sets its kind to Number |
| Driver.DriveStep | src/ok_json.c:201-212 | after a successful scan step the loop goes on from the parser that step left: the whole loop's outcome is the loop's outcome on that parser |
| Driver.FailsOnlyOnScanError | src/ok_json.c:201-212 | a scan step that fails, with any code, ends the loop with ParsingFailed and exactly the parser that step left; conversely ParsingFailed comes only from a failed step, and the slot at the final count holds what it held on entry, apart from a kind of Number written by BadNumber; a cursor on the terminator or a full table returns Success with the parser unchanged |
| Driver.Parse | src/ok_json.c:190-215 | `okj_parse` returns only Success, BadPointer or ParsingFailed, and returns BadPointer exactly for a NULL parser |
| Driver.RepeatParseIsNoOp | src/ok_json.c:198-202 | calling `okj_parse` again on the parser a successful call left returns Success and changes nothing |
| Driver.OverrunFollowsTokenAtTerminator | src/ok_json.c:201 | on a freshly bound parser, the loop test reads past the terminator only after a string or number token that ended at it |
| Driver.TokenAtTerminatorOverruns | src/ok_json.c:201-212 | a step that counts a string or number token starting at the terminator leaves the cursor one past it, and the loop then reads outside the buffer |
| Driver.ReturnedTokensEndInside | src/ok_json.c:201-212 | when the loop returns, every token it counted starts before the terminator, so with OverrunFollowsTokenAtTerminator the loop overruns exactly when it counts a token ending at the terminator |
| Driver.DriveIgnoresStaleSlots | src/ok_json.c:201-212 | two parsers that agree on buffer, cursor, count and the counted tokens' kind, start and string or number length run the loop to the same status and outcome kind, and still agree in that way at the end |
| Driver.ParseDependsOnlyOnBuffer | src/ok_json.c:190-215 | `okj_init` then `okj_parse` give the same status and tokens whatever the parser held before, except for the stale lengths of object, array, boolean and null slots |
| Scenarios.ArrayTest | test/ok_json_tests.c:68-91 | `[1, 2, 3]` parses to Success with four tokens: Array, Number, Number, Number |
| Scenarios.SimpleObjectTest | test/ok_json_tests.c:45-66 | `{"key": 42}` returns ParsingFailed with the tokens Object and (String, 5, 4), not the Success the test expects |
| Scenarios.InvalidJsonTest | test/ok_json_tests.c:93-108 | `{key: 42}` returns ParsingFailed after one Object token |
| Scenarios.TrailingDotTest | src/ok_json.c:128-135 | `1.` is BadNumber in the scanner, with the slot marked Number but not counted, and ParsingFailed from `okj_parse` |
| Scenarios.BareNumberOverruns | src/ok_json.c:122-123 | `42` leaves the cursor one past the terminator, so the loop test reads outside the buffer |
| Scenarios.UnterminatedStringOverruns | src/ok_json.c:93-97 | an unterminated string is accepted and then causes the same read past the terminator |
| Scenarios.SilentTruncation | src/ok_json.c:201-202 | for every buffer of 33 or more `[` characters, `okj_parse` returns Success with exactly 32 tokens and input left unread |
| Scenarios.StringLengthUnchecked | include/ok_json.h:33 | a quoted string of any length parses to one String token of length content + 1; `OKJ_MAX_STRING_LEN` is never checked |

## Left out

- Debug output: the `printf` calls in `okj_parse_value` and `okj_parse` write to standard output and do not affect parser state.
- The six `okj_get_*` accessors (src/ok_json.c:217-299) are stubs that return NULL for every input. No key-lookup logic exists to model.
- The NULL-parser guards inside `okj_parse_value` (src/ok_json.c:61-64) and `okj_skip_whitespace` (src/ok_json.c:49) cannot be reached from their only caller. The model's scan step takes a non-NULL parser. NULL is modelled for `okj_init` and `okj_parse`.
- The 16-bit `start` locals (src/ok_json.c:91, 120) would truncate offsets of 65536 and more. Buffers are assumed shorter than 65536 characters (`CLib.IsBuffer`), so no wrap-around is modelled.
- `isspace` and `isdigit` are the "C" locale sets. Other locales and negative `char` values are not modelled.
- Each element of the buffer stands for one C `char`, that is one byte. A multi-byte encoding of a character appears as several elements, and token lengths count those elements; nothing decodes characters.
- Token `start` is an integer offset, not a pointer. The `const` mismatches between header and source are not modelled.
- What the program does after reading past the terminator is undefined. The model stops at `Driver.Overrun`.
- A parser that was never bound by `okj_init` has an indeterminate cursor and count. `Driver.Parse` requires a valid parser state (`Parser.Valid`) instead of modelling that garbage.
- The test harness's `main` and its messages are not modelled. Only the asserted scenarios are stated, as lemmas.

=== FILE: clib.dfy ===
/** The pieces of the C library the tokenizer relies on: NUL-terminated
    buffers, `isspace` and `isdigit` in the "C" locale, and `strncmp`
    against a string literal. */
module CLib {

  const Nul: char := '\0'

  /** A C string as the tokenizer sees it: the characters before its
      terminator. Token offsets pass through a 16-bit local while a token is
      scanned, so buffers are kept below 65536 characters. */
  predicate IsBuffer(s: seq<char>)
  {
    Nul !in s && |s| < 0x1_0000
  }

  /** Reads index `i` of the NUL-terminated buffer `s`; index `|s|` is the
      terminator. Nothing past the terminator can be read through this
      function, so every model that reads through it is proved in bounds. */
  function At(s: seq<char>, i: int): (c: char)
    requires 0 <= i <= |s|
    ensures i < |s| ==> c == s[i]
    ensures IsBuffer(s) ==> (c == Nul <==> i == |s|)
  {
    if i == |s| then Nul else s[i]
  }

  /** `isspace` in the "C" locale: space, tab, newline, vertical tab,
      form feed and carriage return. */
  predicate IsSpace(c: char)
  {
    c == ' ' || c == '\t' || c == '\n' || c == '\U{B}' || c == '\U{C}' || c == '\r'
  }

  /** `isdigit`: the ten decimal digits. */
  predicate IsDigit(c: char)
  {
    '0' <= c <= '9'
  }

  /** The buffer holds the characters of `lit` from offset `i` on. */
  predicate HoldsAt(s: seq<char>, i: int, lit: seq<char>)
  {
    0 <= i && i + |lit| <= |s| && forall m | 0 <= m < |lit| :: s[i + m] == lit[m]
  }

  /** A buffer holding a non-empty literal at `i` holds its first character
      there. */
  lemma HoldsAtHead(s: seq<char>, i: int, lit: seq<char>)
    requires HoldsAt(s, i, lit) && 0 < |lit|
    ensures At(s, i) == lit[0]
  {
  }

  /** `strncmp(&s[i], lit, |lit|) == 0`: the buffer holds `lit` at offset `i`.
      The literal holds no NUL, so the terminator always compares unequal and
      the comparison never reads past it. */
  function StrnEqual(s: seq<char>, i: int, lit: seq<char>): (r: bool)
    requires 0 <= i <= |s|
    requires Nul !in lit
    ensures r <==> HoldsAt(s, i, lit)
  {
    StrnEqualFrom(s, i, lit, 0)
  }

  /** The comparison loop of `strncmp` from its `k`-th character on: it
      stops at the first difference or after `|lit|` characters. */
  function StrnEqualFrom(s: seq<char>, i: int, lit: seq<char>, k: int): (r: bool)
    requires 0 <= i && 0 <= k <= |lit| && i + k <= |s|
    requires Nul !in lit
    ensures r <==> i + |lit| <= |s| && forall m | k <= m < |lit| :: s[i + m] == lit[m]
    decreases |lit| - k
  {
    if k == |lit| then true
    else if At(s, i + k) != lit[k] then
      assert lit[k] in lit;
      false
    else
      StrnEqualFrom(s, i, lit, k + 1)
  }
}

=== FILE: driver.dfy ===
/** The driver of the tokenizer: `okj_parse` repeats the scan step until the
    terminator or a full token table, and maps every scanner error to
    ParsingFailed. */
module Driver {

  import opened Wrappers
  import opened CLib
  import opened OkJsonHeader
  import opened Scanner

  /** How a call of `okj_parse` ends: it returns a status with the parser
      object (absent when the pointer was NULL), or its loop test reads the
      character past the terminator, which the buffer does not hold. */
  datatype Outcome =
    | Returned(code: ErrorCode, after: Option<Parser>)
    | Overrun(stuck: Parser)

  /** `q` is `p` after some scan steps, the last of which may have failed:
      same buffer, slots below the old count untouched, every newly counted
      slot filled by the scanner, and slots past the new count's own slot
      never written. */
  predicate Extends(p: Parser, q: Parser)
    requires p.Valid()
  {
    && q.Valid()
    && q.json == p.json
    && p.tokenCount <= q.tokenCount
    && (forall k | 0 <= k < p.tokenCount :: q.tokens[k] == p.tokens[k])
    && (forall k | p.tokenCount <= k < q.tokenCount :: Describes(q.tokens[k], p.json))
    && (forall k | q.tokenCount < k < MaxTokens :: q.tokens[k] == p.tokens[k])
  }

  /** The parser an outcome leaves behind, absent after a NULL parser. */
  function FinalState(r: Outcome): Option<Parser>
  {
    if r.Returned? then r.after else Some(r.stuck)
  }

  /** The last counted token is a string or number that ended at the
      terminator. */
  predicate LastTokenAtTerminator(q: Parser)
    requires q.Valid()
  {
    && 0 < q.tokenCount
    && q.tokens[q.tokenCount - 1].kind in {String, Number}
    && q.tokens[q.tokenCount - 1].start == |q.json|
  }

  /** The loop of `okj_parse` (lines 201-212). The loop test reads the cursor
      character before it looks at the count, so a cursor one past the
      terminator is an overrun even with a full table. */
  function Drive(p: Parser): (r: Outcome)
    requires p.Valid()
    ensures FinalState(r).Some?
    ensures FinalState(r).value.Valid() && FinalState(r).value.json == p.json
    ensures r.Returned? ==> r.code == Success || r.code == ParsingFailed
    ensures r.Returned? && r.code == Success ==>
              && r.after.value.position <= |p.json|
              && (r.after.value.position == |p.json| || r.after.value.tokenCount == MaxTokens)
    ensures r.Overrun? ==> r.stuck.position == |p.json| + 1
    ensures p.position == |p.json| + 1 ==> r == Overrun(p)
    decreases MaxTokens - p.tokenCount
  {
    if p.position > |p.json| then
      Overrun(p)
    else if At(p.json, p.position) == Nul || p.tokenCount >= MaxTokens then
      Returned(Success, Some(p))
    else
      var st := ScanValue(p);
      if st.code != Success then Returned(ParsingFailed, Some(st.parser))
      else Drive(st.parser)
  }

  /** The loop only appends: every slot it counts describes the buffer, the
      slots counted before are kept, and slots past the final count's own
      slot are never written. It reads past the terminator only when called
      there, or right after a string or number token that ended at the
      terminator. */
  lemma {:induction false} DriveExtends(p: Parser)
    requires p.Valid()
    ensures Extends(p, FinalState(Drive(p)).value)
    ensures Drive(p).Overrun? ==> Drive(p).stuck == p || LastTokenAtTerminator(Drive(p).stuck)
    decreases MaxTokens - p.tokenCount
  {
    if p.position <= |p.json| && At(p.json, p.position) != Nul && p.tokenCount < MaxTokens {
      var st := ScanValue(p);
      StepExtends(p);
      if st.code == Success {
        DriveExtends(st.parser);
        ExtendsTransitive(p, st.parser, FinalState(Drive(st.parser)).value);
      }
    }
  }

  /** A scan step extends the parser: by one slot when it succeeds, by none
      when it fails. */
  lemma StepExtends(p: Parser)
    requires p.Valid() && p.position <= |p.json| && p.tokenCount < MaxTokens
    ensures Extends(p, ScanValue(p).parser)
  {
  }

  /** Extension is transitive. */
  lemma ExtendsTransitive(p: Parser, q: Parser, r: Parser)
    requires p.Valid() && q.Valid()
    requires Extends(p, q) && Extends(q, r)
    ensures Extends(p, r)
  {
  }

  /** The parser a failed scan step leaves behind: a free slot, the cursor at
      or before the terminator, and either a non-space character there that
      begins no token (Syntax), or a number run ending in '.' just before it
      with the slot's kind already set to Number (BadNumber). */
  predicate FailedStep(q: Parser)
    requires q.Valid()
  {
    && q.tokenCount < MaxTokens
    && q.position <= |q.json|
    && ((!IsSpace(At(q.json, q.position)) && NoTokenAt(q.json, q.position))
        || (&& 0 < q.position
            && q.json[q.position - 1] == '.'
            && !IsNumberChar(At(q.json, q.position))
            && q.tokens[q.tokenCount].kind == Number))
  }

  /** The slot at `q`'s count holds what it held in `p`, apart from a kind
      of Number that a BadNumber step writes. */
  predicate FreeSlotKept(p: Parser, q: Parser)
    requires q.Valid() && q.tokenCount < MaxTokens
  {
    var old_slot := p.tokens[q.tokenCount];
    q.tokens[q.tokenCount] == old_slot || q.tokens[q.tokenCount] == old_slot.(kind := Number)
  }

  /** A scan step that does not succeed leaves a FailedStep parser, and the
      slot it failed on keeps everything but possibly its kind. */
  lemma ScanFailure(p: Parser)
    requires p.Valid() && p.position <= |p.json| && p.tokenCount < MaxTokens
    ensures ScanValue(p).code != Success ==>
              && FailedStep(ScanValue(p).parser)
              && FreeSlotKept(p, ScanValue(p).parser)
  {
    var c := At(p.json, Lookahead(p));
    if IsDigit(c) || c == '-' {
      NumberStep(p);
    } else {
      UnrecognisedIsSyntaxError(p);
    }
  }

  /** One successful step of the loop: the result of the whole loop is the
      result of the loop on the parser after the step. */
  lemma DriveStep(p: Parser)
    requires p.Valid() && p.position < |p.json| && p.tokenCount < MaxTokens
    requires ScanValue(p).code == Success
    ensures Drive(p) == Drive(ScanValue(p).parser)
  {
  }

  /** The loop fails exactly on a scanner error: a failing step ends it with
      ParsingFailed and the parser that step left, whatever the specific
      code, and ParsingFailed only ever comes from such a step, which leaves the slot it failed
      on as it was apart from its kind, and stops with Success, leaving the
      parser as it is, when the cursor is on the terminator or the table is
      full. */
  lemma {:induction false} FailsOnlyOnScanError(p: Parser)
    requires p.Valid()
    ensures Drive(p).Returned? && Drive(p).code == ParsingFailed ==>
              && FailedStep(Drive(p).after.value)
              && FreeSlotKept(p, Drive(p).after.value)
    ensures p.position <= |p.json| && (At(p.json, p.position) == Nul || p.tokenCount == MaxTokens) ==>
              Drive(p) == Returned(Success, Some(p))
    ensures p.position <= |p.json| && At(p.json, p.position) != Nul && p.tokenCount < MaxTokens
            && ScanValue(p).code != Success ==>
              Drive(p) == Returned(ParsingFailed, Some(ScanValue(p).parser))
    decreases MaxTokens - p.tokenCount
  {
    if p.position <= |p.json| && At(p.json, p.position) != Nul && p.tokenCount < MaxTokens {
      var st := ScanValue(p);
      if st.code == Success {
        FailsOnlyOnScanError(st.parser);
        DriveExtends(st.parser);
      } else {
        ScanFailure(p);
      }
    }
  }

  /** `okj_parse`: BadPointer for a NULL parser; otherwise the loop runs on
      the parser as it is, without resetting it. */
  function Parse(parser: Option<Parser>): (r: Outcome)
    requires parser.Some? ==> parser.value.Valid()
    ensures r.Returned? ==> r.code == Success || r.code == BadPointer || r.code == ParsingFailed
    ensures (r.Returned? && r.code == BadPointer) <==> parser.None?
    ensures parser.None? ==> r == Returned(BadPointer, None)
  {
    if parser.None? then Returned(BadPointer, None) else Drive(parser.value)
  }

  /** `okj_parse` never resets the parser, so calling it again on the parser
      a successful call left behind returns Success and changes nothing. */
  lemma RepeatParseIsNoOp(p: Parser)
    requires p.Valid()
    requires Parse(Some(p)).Returned? && Parse(Some(p)).code == Success
    ensures Parse(Parse(Some(p)).after) == Parse(Some(p))
  {
  }

  /** On a freshly bound parser the only way to read past the terminator is a
      string or number token that ended at it. */
  lemma OverrunFollowsTokenAtTerminator(p: Parser)
    requires p.Valid() && p.position == 0
    requires Parse(Some(p)).Overrun?
    ensures var q := Parse(Some(p)).stuck;
            && q.position == |p.json| + 1
            && LastTokenAtTerminator(q)
  {
    DriveExtends(p);
  }

  /** A step that counts a string or number token ending at the terminator
      leaves the cursor one past it, and the loop test then reads outside the
      buffer. */
  lemma TokenAtTerminatorOverruns(p: Parser)
    requires p.Valid() && p.position <= |p.json| && p.tokenCount < MaxTokens
    requires ScanValue(p).code == Success
    requires ScanValue(p).parser.tokens[p.tokenCount].start == |p.json|
    ensures ScanValue(p).parser.position == |p.json| + 1
    ensures Drive(p) == Overrun(ScanValue(p).parser)
  {
    UnrecognisedIsSyntaxError(p);
  }

  /** When the loop returns, no token it counted starts at the terminator:
      together with OverrunFollowsTokenAtTerminator, the loop overruns exactly
      when it counts a token ending there. */
  lemma {:induction false} ReturnedTokensEndInside(p: Parser)
    requires p.Valid() && p.position <= |p.json|
    ensures Drive(p).Returned? ==>
              forall k | p.tokenCount <= k < Drive(p).after.value.tokenCount ::
                Drive(p).after.value.tokens[k].start < |p.json|
    decreases MaxTokens - p.tokenCount
  {
    if At(p.json, p.position) != Nul && p.tokenCount < MaxTokens {
      var st := ScanValue(p);
      if st.code == Success && st.parser.position <= |p.json| {
        ReturnedTokensEndInside(st.parser);
        DriveExtends(st.parser);
      }
    }
  }

  /** Two parsers that agree on buffer, cursor, count and the counted
      tokens' kind, start and string or number length run the loop alike:
      stale contents of the token table never change the status returned or
      the meaningful fields of the tokens produced. */
  lemma {:induction false} DriveIgnoresStaleSlots(a: Parser, b: Parser)
    requires a.Valid() && SameScan(a, b)
    ensures b.Valid()
    ensures Drive(a).Returned? <==> Drive(b).Returned?
    ensures Drive(a).Returned? ==>
              Drive(a).code == Drive(b).code && SameScan(Drive(a).after.value, Drive(b).after.value)
    ensures Drive(a).Overrun? ==> SameScan(Drive(a).stuck, Drive(b).stuck)
    decreases MaxTokens - a.tokenCount
  {
    if a.position <= |a.json| && At(a.json, a.position) != Nul && a.tokenCount < MaxTokens {
      ScanIgnoresStaleSlots(a, b);
      if ScanValue(a).code == Success {
        DriveIgnoresStaleSlots(ScanValue(a).parser, ScanValue(b).parser);
      }
    }
  }

  /** Binding a buffer and parsing it gives the same status and the same
      tokens whatever the parser object held before, up to the stale length
      of object, array, boolean and null slots. */
  lemma ParseDependsOnlyOnBuffer(p1: Parser, p2: Parser, s: seq<char>)
    requires IsBuffer(s)
    ensures var r1 := Parse(Init(Some(p1), Some(s)));
            var r2 := Parse(Init(Some(p2), Some(s)));
            && (r1.Returned? <==> r2.Returned?)
            && (r1.Returned? ==> r1.code == r2.code && SameScan(r1.after.value, r2.after.value))
            && (r1.Overrun? ==> SameScan(r1.stuck, r2.stuck))
  {
    DriveIgnoresStaleSlots(Init(Some(p1), Some(s)).value, Init(Some(p2), Some(s)).value);
  }
}

=== FILE: header.dfy ===
/** The data model of the tokenizer: its capacity constants, token kinds,
    token record, parser record and status codes. */
module OkJsonHeader {

  import opened Wrappers
  import opened CLib

  /** Capacity of the fixed token table. */
  const MaxTokens: int := 32

  /** Declared limit on key and string length; the scanner never checks it. */
  const MaxStringLen: int := 64

  /** The kinds a token slot can hold, in declaration order. */
  datatype TokenType = Undefined | Object | Array | String | Number | Boolean | Null

  /** The numeric value C gives each enumerator: declaration order from 0. */
  function Ordinal(t: TokenType): (v: nat)
    ensures v < 7
    ensures v == 0 <==> t == Undefined
  {
    match t
    case Undefined => 0
    case Object => 1
    case Array => 2
    case String => 3
    case Number => 4
    case Boolean => 5
    case Null => 6
  }

  /** The enumerator with numeric value `v`, if there is one. */
  function FromOrdinal(v: int): (t: Option<TokenType>)
    ensures t.Some? <==> 0 <= v < 7
  {
    if v == 0 then Some(Undefined)
    else if v == 1 then Some(Object)
    else if v == 2 then Some(Array)
    else if v == 3 then Some(String)
    else if v == 4 then Some(Number)
    else if v == 5 then Some(Boolean)
    else if v == 6 then Some(Null)
    else None
  }

  /** The enumeration is a bijection between the seven kinds and 0..6. */
  lemma OrdinalBijection(t: TokenType, v: int)
    ensures FromOrdinal(Ordinal(t)) == Some(t)
    ensures FromOrdinal(v).Some? ==> Ordinal(FromOrdinal(v).value) == v
  {
  }

  /** A token slot. `start` is an offset into the buffer (the C field is a
      pointer into it); `length` counts buffer elements, each of which
      stands for one C `char`. */
  datatype Token = Token(kind: TokenType, start: int, length: int)

  /** The fixed-size token storage of the parser. */
  type TokenTable = t: seq<Token> | |t| == MaxTokens
    witness seq(32, _ => Token(Undefined, 0, 0))

  /** Status codes of the tokenizer. Their numeric values are defined in no
      file of the library, so only their identity is modelled. */
  datatype ErrorCode = Success | BadPointer | Syntax | BadNumber | ParsingFailed

  /** The parser object: token table, number of tokens parsed, the bound
      buffer and the cursor into it. */
  datatype Parser = Parser(tokens: TokenTable, tokenCount: int, json: seq<char>, position: int)
  {
    /** The states a bound parser can be in: a well-formed buffer, a count
        within the table, and a cursor at most one past the terminator (the
        scanner can leave it there). */
    predicate Valid()
    {
      && IsBuffer(json)
      && 0 <= tokenCount <= MaxTokens
      && 0 <= position <= |json| + 1
    }
  }
}

=== FILE: scanner.dfy ===
/** The scanner of the tokenizer: binding a buffer, skipping whitespace, and
    the one-step scan that classifies the character at the cursor and fills
    one token slot. */
module Scanner {

  import opened Wrappers
  import opened CLib
  import opened OkJsonHeader

  /** `okj_init`: with both pointers non-NULL, binds the buffer and resets
      cursor and count; token slots keep whatever they held. With either
      pointer NULL nothing changes. */
  function Init(parser: Option<Parser>, jsonString: Option<seq<char>>): (r: Option<Parser>)
    ensures parser.None? || jsonString.None? ==> r == parser
    ensures parser.Some? && jsonString.Some? ==>
              && r.Some?
              && r.value.json == jsonString.value
              && r.value.position == 0
              && r.value.tokenCount == 0
              && r.value.tokens == parser.value.tokens
    ensures parser.Some? && jsonString.Some? && IsBuffer(jsonString.value) ==> r.value.Valid()
  {
    match (parser, jsonString)
    case (Some(p), Some(s)) => Some(p.(json := s, position := 0, tokenCount := 0))
    case _ => parser
  }

  /** `okj_skip_whitespace`: the first index at or after `i` that does not
      hold a space character. The terminator is not a space, so it stops
      there at the latest. */
  function SkipWhitespace(s: seq<char>, i: int): (j: int)
    requires 0 <= i <= |s|
    ensures i <= j <= |s|
    ensures forall k | i <= k < j :: IsSpace(s[k])
    ensures !IsSpace(At(s, j))
    decreases |s| - i
  {
    if IsSpace(At(s, i)) then SkipWhitespace(s, i + 1) else i
  }

  /** The string loop: from index `k`, the first index holding a double
      quote or the terminator. No escape sequence is recognised. */
  function StringEnd(s: seq<char>, k: int): (q: int)
    requires 0 <= k <= |s| && Nul !in s
    ensures k <= q <= |s|
    ensures forall m | k <= m < q :: s[m] != '"'
    ensures q == |s| || s[q] == '"'
    decreases |s| - k
  {
    if At(s, k) != Nul && At(s, k) != '"' then StringEnd(s, k + 1) else k
  }

  /** The characters the number loop consumes. */
  predicate IsNumberChar(c: char)
  {
    IsDigit(c) || c == '.'
  }

  /** The number loop: from index `k`, the first index holding neither a
      digit nor a '.'. */
  function NumberEnd(s: seq<char>, k: int): (q: int)
    requires 0 <= k <= |s|
    ensures k <= q <= |s|
    ensures forall m | k <= m < q :: IsNumberChar(s[m])
    ensures !IsNumberChar(At(s, q))
    decreases |s| - k
  {
    if IsNumberChar(At(s, k)) then NumberEnd(s, k + 1) else k
  }

  /** What the scanner saw when it stopped: the outcome code and the parser
      after the step. */
  datatype Step = Step(code: ErrorCode, parser: Parser)

  /** The index of the character a scan step classifies. */
  function Lookahead(p: Parser): (i: int)
    requires p.Valid() && p.position <= |p.json|
    ensures p.position <= i <= |p.json|
  {
    SkipWhitespace(p.json, p.position)
  }

  /** What a filled slot claims about the buffer `s`. `start` is the cursor
      after the scan: the triggering character of a delimiter or literal, the
      closing quote (or terminator) of a string, the character after a
      number; `start - length` is the first character of a string or number. */
  predicate Describes(t: Token, s: seq<char>)
  {
    match t.kind
    case Undefined => false
    case Object => 0 <= t.start < |s| && s[t.start] == '{'
    case Array => 0 <= t.start < |s| && s[t.start] == '['
    case Boolean => HoldsAt(s, t.start, "true") || HoldsAt(s, t.start, "false")
    case Null => HoldsAt(s, t.start, "null")
    case String =>
      && 1 <= t.length <= t.start <= |s|
      && s[t.start - t.length] == '"'
      && (t.start == |s| || s[t.start] == '"')
      && (forall m | t.start - t.length < m < t.start :: s[m] != '"')
    case Number =>
      && 1 <= t.length <= t.start <= |s|
      && (IsDigit(s[t.start - t.length]) || s[t.start - t.length] == '-')
      && (forall m | t.start - t.length < m < t.start :: IsNumberChar(s[m]))
      && s[t.start - 1] != '.'
      && !IsNumberChar(At(s, t.start))
  }

  /** Records `slot` at the next free index with the current cursor `at` as
      its start, steps past `at` and counts the token (lines 166-182). */
  function Emit(p: Parser, slot: Token, at: int): (r: Step)
    requires p.Valid() && p.tokenCount < MaxTokens
    requires p.position <= at <= |p.json|
    requires Describes(slot.(start := at), p.json)
    ensures r.code == Success && r.parser.json == p.json && r.parser.Valid()
    ensures r.parser.tokenCount == p.tokenCount + 1 && r.parser.position == at + 1
    ensures r.parser.tokens[p.tokenCount] == slot.(start := at)
    ensures forall k | 0 <= k < MaxTokens && k != p.tokenCount :: r.parser.tokens[k] == p.tokens[k]
  {
    Step(Success,
         p.(tokens := p.tokens[p.tokenCount := slot.(start := at)],
            position := at + 1,
            tokenCount := p.tokenCount + 1))
  }

  /** The string branch (lines 84-111) for an opening quote at `i`: the slot
      becomes a String whose length is the distance from the opening quote to
      the closing quote or terminator, and the cursor moves past that point. */
  function ScanString(p: Parser, i: int): (r: Step)
    requires p.Valid() && p.tokenCount < MaxTokens
    requires p.position <= i < |p.json| && p.json[i] == '"'
    ensures r.code == Success && r.parser.json == p.json && r.parser.Valid()
    ensures r.parser.tokenCount == p.tokenCount + 1
    ensures forall k | 0 <= k < MaxTokens && k != p.tokenCount :: r.parser.tokens[k] == p.tokens[k]
    ensures var t := r.parser.tokens[p.tokenCount];
            && t.kind == String
            && t.start == r.parser.position - 1
            && i + t.length == t.start
            && Describes(t, p.json)
  {
    var q := StringEnd(p.json, i + 1);
    Emit(p, p.tokens[p.tokenCount].(kind := String, length := q - i), q)
  }

  /** The number branch (lines 113-137) for a digit or '-' at `i`: the run of
      digits and '.' after it is consumed; a run ending in '.' is BadNumber
      with the slot's kind already set; otherwise the slot becomes a Number
      of the consumed length and the character after the run is skipped. */
  function ScanNumber(p: Parser, i: int): (r: Step)
    requires p.Valid() && p.tokenCount < MaxTokens
    requires p.position <= i < |p.json| && (IsDigit(p.json[i]) || p.json[i] == '-')
    ensures r.code == Success || r.code == BadNumber
    ensures r.parser.json == p.json && r.parser.Valid()
    ensures forall k | 0 <= k < MaxTokens && k != p.tokenCount :: r.parser.tokens[k] == p.tokens[k]
    ensures r.parser.tokens[p.tokenCount].kind == Number
    ensures r.code == BadNumber ==>
              && r.parser.tokenCount == p.tokenCount
              && r.parser.tokens[p.tokenCount] == p.tokens[p.tokenCount].(kind := Number)
              && i < r.parser.position <= |p.json|
              && (forall m | i < m < r.parser.position :: IsNumberChar(p.json[m]))
              && p.json[r.parser.position - 1] == '.'
              && !IsNumberChar(At(p.json, r.parser.position))
    ensures r.code == Success ==>
              var t := r.parser.tokens[p.tokenCount];
              && r.parser.tokenCount == p.tokenCount + 1
              && t.start == r.parser.position - 1
              && i + t.length == t.start
              && Describes(t, p.json)
  {
    var s := p.json;
    var q := NumberEnd(s, i + 1);
    var slot := p.tokens[p.tokenCount];
    if At(s, q - 1) == '.' then
      Step(BadNumber, p.(tokens := p.tokens[p.tokenCount := slot.(kind := Number)], position := q))
    else
      Emit(p, slot.(kind := Number, length := q - i), q)
  }

  /** The remaining branches (lines 70-83 and 142-164) for the character at
      `i`: '{', '[' and the prefixes "true", "false" and "null" become
      one-character Object, Array, Boolean and Null tokens that keep the
      slot's old length; anything else is Syntax with the cursor left on it. */
  function ScanSingle(p: Parser, i: int): (r: Step)
    requires p.Valid() && p.tokenCount < MaxTokens
    requires p.position <= i <= |p.json|
    ensures r.code == Success || r.code == Syntax
    ensures r.code == Syntax ==> r.parser == p.(position := i)
    ensures r.code == Success ==> SingleToken(p, i, r.parser)
    ensures var s := p.json;
            var kind := r.parser.tokens[p.tokenCount].kind;
            && (At(s, i) == '{' ==> r.code == Success && kind == Object)
            && (At(s, i) == '[' ==> r.code == Success && kind == Array)
            && (HoldsAt(s, i, "true") || HoldsAt(s, i, "false") ==> r.code == Success && kind == Boolean)
            && (HoldsAt(s, i, "null") ==> r.code == Success && kind == Null)
  {
    var slot := p.tokens[p.tokenCount];
    var c := At(p.json, i);
    LiteralHeads(p.json, i);
    if c == '{' then
      Emit(p, slot.(kind := Object), i)
    else if c == '[' then
      Emit(p, slot.(kind := Array), i)
    else
      ScanLiteral(p, i)
  }

  /** `q` is `p` after a one-character token at `i`: one more slot, holding
      an Object, Array, Boolean or Null that starts at `i`, describes the
      buffer and keeps the slot's old length; the cursor is one past `i`. */
  predicate SingleToken(p: Parser, i: int, q: Parser)
    requires p.Valid() && p.tokenCount < MaxTokens
  {
    && q.json == p.json && q.Valid()
    && q.tokenCount == p.tokenCount + 1
    && q.position == i + 1
    && (forall k | 0 <= k < MaxTokens && k != p.tokenCount :: q.tokens[k] == p.tokens[k])
    && q.tokens[p.tokenCount].kind in {Object, Array, Boolean, Null}
    && q.tokens[p.tokenCount].start == i
    && q.tokens[p.tokenCount].length == p.tokens[p.tokenCount].length
    && Describes(q.tokens[p.tokenCount], p.json)
  }

  /** The first letters of the three literals. */
  lemma LiteralHeads(s: seq<char>, i: int)
    requires 0 <= i <= |s|
    ensures HoldsAt(s, i, "true") ==> At(s, i) == 't'
    ensures HoldsAt(s, i, "false") ==> At(s, i) == 'f'
    ensures HoldsAt(s, i, "null") ==> At(s, i) == 'n'
  {
    if HoldsAt(s, i, "true") { HoldsAtHead(s, i, "true"); }
    if HoldsAt(s, i, "false") { HoldsAtHead(s, i, "false"); }
    if HoldsAt(s, i, "null") { HoldsAtHead(s, i, "null"); }
  }

  /** The literal branches (lines 142-164): "true" or "false" at `i` is a
      Boolean, "null" a Null, and anything else Syntax. */
  function ScanLiteral(p: Parser, i: int): (r: Step)
    requires p.Valid() && p.tokenCount < MaxTokens
    requires p.position <= i <= |p.json|
    ensures r.code == Success || r.code == Syntax
    ensures r.code == Syntax ==> r.parser == p.(position := i)
    ensures r.code == Success ==> SingleToken(p, i, r.parser)
    ensures r.code == Success ==> r.parser.tokens[p.tokenCount].kind in {Boolean, Null}
    ensures var s := p.json;
            var kind := r.parser.tokens[p.tokenCount].kind;
            && (HoldsAt(s, i, "true") || HoldsAt(s, i, "false") ==> r.code == Success && kind == Boolean)
            && (HoldsAt(s, i, "null") ==> r.code == Success && kind == Null)
            && (r.code == Success ==> At(s, i) in {'t', 'f', 'n'})
  {
    var s := p.json;
    var slot := p.tokens[p.tokenCount];
    LiteralHeads(s, i);
    if StrnEqual(s, i, "true") || StrnEqual(s, i, "false") then
      Emit(p, slot.(kind := Boolean), i)
    else if StrnEqual(s, i, "null") then
      Emit(p, slot.(kind := Null), i)
    else
      Step(Syntax, p.(position := i))
  }

  /** `okj_parse_value`: skips whitespace, classifies the character there and
      either fills slot `tokenCount` or reports an error. The caller
      guarantees a free slot and a cursor at or before the terminator. */
  function ScanValue(p: Parser): (r: Step)
    requires p.Valid() && p.position <= |p.json| && p.tokenCount < MaxTokens
    ensures r.parser.json == p.json && r.parser.Valid()
    ensures r.code == Success || r.code == Syntax || r.code == BadNumber
    ensures forall k | 0 <= k < MaxTokens && k != p.tokenCount :: r.parser.tokens[k] == p.tokens[k]
    ensures r.code == Success ==>
              && r.parser.tokenCount == p.tokenCount + 1
              && p.position < r.parser.position
              && r.parser.tokens[p.tokenCount].start == r.parser.position - 1
              && Describes(r.parser.tokens[p.tokenCount], p.json)
    ensures r.code == Syntax ==>
              && r.parser.tokenCount == p.tokenCount
              && r.parser.tokens == p.tokens
              && r.parser.position <= |p.json|
              && (forall k | p.position <= k < r.parser.position :: IsSpace(p.json[k]))
    ensures r.code == BadNumber ==>
              && r.parser.tokenCount == p.tokenCount
              && r.parser.tokens[p.tokenCount] == p.tokens[p.tokenCount].(kind := Number)
              && p.position < r.parser.position <= |p.json|
              && p.json[r.parser.position - 1] == '.'
    ensures r.parser.position == |p.json| + 1 ==>
              && r.code == Success
              && r.parser.tokens[p.tokenCount].kind in {String, Number}
  {
    var i := Lookahead(p);
    var c := At(p.json, i);
    if c == '"' then ScanString(p, i)
    else if IsDigit(c) || c == '-' then ScanNumber(p, i)
    else ScanSingle(p, i)
  }

  /** Object, array, boolean and null tokens consume exactly the character
      that triggered them: the cursor moves one past it, `start` is that
      character, and the slot's length is left as it was. Booleans and null
      are bare prefix matches on "true", "false" and "null". */
  lemma SingleCharacterTokens(p: Parser)
    requires p.Valid() && p.position <= |p.json| && p.tokenCount < MaxTokens
    ensures var s := p.json;
            var i := Lookahead(p);
            var r := ScanValue(p);
            var t := r.parser.tokens[p.tokenCount];
            && (At(s, i) == '{' ==> r.code == Success && t.kind == Object)
            && (At(s, i) == '[' ==> r.code == Success && t.kind == Array)
            && (HoldsAt(s, i, "true") || HoldsAt(s, i, "false")
                ==> r.code == Success && t.kind == Boolean)
            && (HoldsAt(s, i, "null") ==> r.code == Success && t.kind == Null)
            && (r.code == Success && t.kind in {Object, Array, Boolean, Null} ==>
                  && r.parser.position == i + 1
                  && t.start == i
                  && t.length == p.tokens[p.tokenCount].length)
  {
    LiteralHeads(p.json, Lookahead(p));
  }

  /** The character at `i` begins no token: it is not '{', '[', '"', '-'
      or a digit, and the buffer does not hold "true", "false" or "null"
      there. The terminator begins no token. */
  predicate NoTokenAt(s: seq<char>, i: int)
    requires 0 <= i <= |s|
  {
    var c := At(s, i);
    && c !in {'{', '[', '"', '-'}
    && !IsDigit(c)
    && !HoldsAt(s, i, "true") && !HoldsAt(s, i, "false") && !HoldsAt(s, i, "null")
  }

  /** A step is a syntax error exactly when the next non-space character
      begins no token; then no slot is written and the cursor stays on it,
      so only whitespace was consumed. Words such as "tru" or "nope" are
      syntax errors too. */
  lemma UnrecognisedIsSyntaxError(p: Parser)
    requires p.Valid() && p.position <= |p.json| && p.tokenCount < MaxTokens
    ensures ScanValue(p).code == Syntax <==> NoTokenAt(p.json, Lookahead(p))
    ensures NoTokenAt(p.json, Lookahead(p)) ==> ScanValue(p) == Step(Syntax, p.(position := Lookahead(p)))
  {
    LiteralHeads(p.json, Lookahead(p));
  }

  /** The closing delimiters and separators never produce tokens: met as the
      next non-space character, each is a syntax error. */
  lemma ClosersAreSyntaxErrors(p: Parser)
    requires p.Valid() && p.position <= |p.json| && p.tokenCount < MaxTokens
    requires At(p.json, Lookahead(p)) in {'}', ']', ',', ':'}
    ensures ScanValue(p).code == Syntax
    ensures ScanValue(p).parser.position == Lookahead(p)
    ensures ScanValue(p).parser.tokens == p.tokens
  {
    UnrecognisedIsSyntaxError(p);
  }

  /** A literal token consumes only its first letter, so the step after it
      starts on the literal's second letter and is a syntax error. */
  lemma LiteralsHaveNoBoundary(p: Parser)
    requires p.Valid() && p.position <= |p.json| && p.tokenCount + 1 < MaxTokens
    requires ScanValue(p).code == Success
    requires ScanValue(p).parser.tokens[p.tokenCount].kind in {Boolean, Null}
    ensures ScanValue(p).parser.position <= |p.json|
    ensures ScanValue(ScanValue(p).parser).code == Syntax
    ensures ScanValue(ScanValue(p).parser).parser.position == ScanValue(p).parser.position
  {
    var s := p.json;
    var q := ScanValue(p).parser;
    var t := q.tokens[p.tokenCount];
    var i := t.start;
    assert q.position == i + 1;
    var c := s[i + 1];
    assert c == 'r' || c == 'a' || c == 'u' by {
      if HoldsAt(s, i, "null") {
        assert s[i + 1] == "null"[1];
      } else if HoldsAt(s, i, "true") {
        assert s[i + 1] == "true"[1];
      } else {
        assert s[i + 1] == "false"[1];
      }
    }
    assert Lookahead(q) == i + 1;
    UnrecognisedIsSyntaxError(q);
  }

  /** A string step, stated against the scan loop: the cursor ends one past
      the first quote or terminator after the opening quote, and the length
      is that point's distance from the opening quote. */
  lemma StringStep(p: Parser)
    requires p.Valid() && p.position <= |p.json| && p.tokenCount < MaxTokens
    requires At(p.json, Lookahead(p)) == '"'
    ensures var i := Lookahead(p);
            var q := StringEnd(p.json, i + 1);
            var r := ScanValue(p);
            && r.code == Success
            && r.parser.tokenCount == p.tokenCount + 1
            && r.parser.position == q + 1
            && r.parser.tokens[p.tokenCount] == Token(String, q, q - i)
  {
  }

  /** A number step, stated against the scan loop: a run ending in '.' is
      BadNumber with the cursor left after the run; otherwise the cursor ends
      one past the character after the run. */
  lemma NumberStep(p: Parser)
    requires p.Valid() && p.position <= |p.json| && p.tokenCount < MaxTokens
    requires IsDigit(At(p.json, Lookahead(p))) || At(p.json, Lookahead(p)) == '-'
    ensures var i := Lookahead(p);
            var q := NumberEnd(p.json, i + 1);
            var r := ScanValue(p);
            && (p.json[q - 1] == '.' ==>
                  && r.code == BadNumber
                  && r.parser.tokenCount == p.tokenCount
                  && r.parser.position == q)
            && (p.json[q - 1] != '.' ==>
                  && r.code == Success
                  && r.parser.tokenCount == p.tokenCount + 1
                  && r.parser.position == q + 1
                  && r.parser.tokens[p.tokenCount] == Token(Number, q, q - i))
  {
  }

  /** Two parsers that agree on buffer, cursor, count and the meaningful
      fields of the counted slots: kind and start of every counted token,
      and length where the scanner writes it (strings and numbers). The
      length of an object, array, boolean or null slot is whatever the slot
      held before, so it is left out. */
  predicate SameScan(a: Parser, b: Parser)
  {
    && a.json == b.json
    && a.position == b.position
    && a.tokenCount == b.tokenCount
    && (forall k | 0 <= k < a.tokenCount && k < MaxTokens ::
          && a.tokens[k].kind == b.tokens[k].kind
          && a.tokens[k].start == b.tokens[k].start
          && (a.tokens[k].kind in {String, Number} ==> a.tokens[k].length == b.tokens[k].length))
  }

  /** Two parsers that agree on buffer, cursor, count and the counted
      tokens' kind, start and string or number length step alike: stale
      contents of the token table never change a step's outcome. */
  lemma ScanIgnoresStaleSlots(a: Parser, b: Parser)
    requires a.Valid() && a.position <= |a.json| && a.tokenCount < MaxTokens
    requires SameScan(a, b)
    ensures b.Valid() && b.position <= |b.json| && b.tokenCount < MaxTokens
    ensures ScanValue(a).code == ScanValue(b).code
    ensures SameScan(ScanValue(a).parser, ScanValue(b).parser)
  {
    var c := At(a.json, Lookahead(a));
    if c == '"' || IsDigit(c) || c == '-' {
      RunIgnoresStaleSlots(a, b);
    } else {
      SingleCharacterIgnoresStaleSlots(a, b);
    }
  }

  /** A scan step reads no token slot: from the same buffer, cursor and
      count, two parsers get the same code, cursor and count, the same kind
      in the slot unless the step is a syntax error, the same start on
      success, and the same length for a string or number. */
  lemma ScanReadsNoSlot(a: Parser, b: Parser)
    requires a.Valid() && a.position <= |a.json| && a.tokenCount < MaxTokens
    requires b.json == a.json && b.position == a.position && b.tokenCount == a.tokenCount
    ensures var ra := ScanValue(a);
            var rb := ScanValue(b);
            var ta := ra.parser.tokens[a.tokenCount];
            var tb := rb.parser.tokens[a.tokenCount];
            && b.Valid()
            && ra.code == rb.code
            && ra.parser.position == rb.parser.position
            && ra.parser.tokenCount == rb.parser.tokenCount
            && (ra.code != Syntax ==> ta.kind == tb.kind)
            && (ra.code == Success ==> ta.start == tb.start)
            && (ra.code == Success && ta.kind in {String, Number} ==> ta.length == tb.length)
  {
    var c := At(a.json, Lookahead(a));
    if c == '"' {
      StringStep(a);
      StringStep(b);
    } else if IsDigit(c) || c == '-' {
      NumberStep(a);
      NumberStep(b);
    } else {
      UnrecognisedIsSyntaxError(a);
      UnrecognisedIsSyntaxError(b);
      SingleCharacterTokens(a);
      SingleCharacterTokens(b);
    }
  }

  /** The stale-slot independence of a string or number step. */
  lemma RunIgnoresStaleSlots(a: Parser, b: Parser)
    requires a.Valid() && a.position <= |a.json| && a.tokenCount < MaxTokens
    requires SameScan(a, b) && b.Valid()
    requires var c := At(a.json, Lookahead(a)); c == '"' || IsDigit(c) || c == '-'
    ensures ScanValue(a).code == ScanValue(b).code
    ensures SameScan(ScanValue(a).parser, ScanValue(b).parser)
  {
  }

  /** The stale-slot independence of a step that is not a string or number. */
  lemma SingleCharacterIgnoresStaleSlots(a: Parser, b: Parser)
    requires a.Valid() && a.position <= |a.json| && a.tokenCount < MaxTokens
    requires SameScan(a, b) && b.Valid()
    requires At(a.json, Lookahead(a)) != '"'
    requires !IsDigit(At(a.json, Lookahead(a))) && At(a.json, Lookahead(a)) != '-'
    ensures ScanValue(a).code == ScanValue(b).code
    ensures SameScan(ScanValue(a).parser, ScanValue(b).parser)
  {
  }
}

=== FILE: scenarios.dfy ===
/** The outcomes of the library's test inputs and of inputs that exhibit the
    tokenizer's edge cases, each on a parser object in any prior state. Each
    run is proved backwards, one scan step per lemma. */
module Scenarios {

  import opened Wrappers
  import opened CLib
  import opened OkJsonHeader
  import opened Scanner
  import opened Driver

  // ---------------------------------------------------------------------
  // "[1, 2, 3]"

  const ArrayInput: string := "[1, 2, 3]"

  /** The kinds "[1, 2, 3]" leaves in the table once `q.tokenCount` tokens
      have been read. */
  predicate ArrayKindsSoFar(q: Parser)
    requires 0 <= q.tokenCount <= 4
  {
    && (0 < q.tokenCount ==> q.tokens[0].kind == Array)
    && (forall k | 1 <= k < q.tokenCount :: q.tokens[k].kind == Number)
  }

  /** The cursor position the scan of "[1, 2, 3]" reaches after `n` tokens. */
  function ArrayCursor(n: int): int
    requires 0 <= n <= 4
  {
    [0, 1, 3, 6, 9][n]
  }

  /** The first step of "[1, 2, 3]": '[' is an Array token. */
  lemma ArrayOpen(q: Parser)
    requires q.Valid() && q.json == ArrayInput && q.position == 0 && q.tokenCount == 0
    ensures ScanValue(q).code == Success
    ensures ScanValue(q).parser.position == ArrayCursor(1)
    ensures ScanValue(q).parser.tokens[0].kind == Array
  {
  }

  /** The steps of "[1, 2, 3]" after '[': each reads one digit as a Number
      and swallows the ',' or ']' after it. */
  lemma ArrayElement(q: Parser)
    requires q.Valid() && q.json == ArrayInput
    requires 1 <= q.tokenCount < 4 && q.position == ArrayCursor(q.tokenCount)
    ensures ScanValue(q).code == Success
    ensures ScanValue(q).parser.position == ArrayCursor(q.tokenCount + 1)
    ensures ScanValue(q).parser.tokens[q.tokenCount].kind == Number
  {
    var s := ArrayInput;
    var d := ArrayCursor(q.tokenCount + 1) - 2;
    assert SkipWhitespace(s, d) == d by {
      assert SkipWhitespace(s, 1) == 1;
      assert SkipWhitespace(s, 4) == 4 && SkipWhitespace(s, 3) == 4;
      assert SkipWhitespace(s, 7) == 7 && SkipWhitespace(s, 6) == 7;
    }
    assert NumberEnd(s, d + 1) == d + 1;
    NumberStep(q);
  }

  /** From the cursor position the scan of "[1, 2, 3]" reaches after
      `q.tokenCount` tokens, the loop completes with four tokens. */
  lemma {:induction false} ArrayRest(q: Parser)
    requires q.Valid() && q.json == ArrayInput
    requires 0 <= q.tokenCount <= 4
    requires q.position == ArrayCursor(q.tokenCount)
    requires ArrayKindsSoFar(q)
    ensures Drive(q).Returned? && Drive(q).code == Success
    ensures Drive(q).after.value.tokenCount == 4 && ArrayKindsSoFar(Drive(q).after.value)
    decreases 4 - q.tokenCount
  {
    if q.tokenCount == 4 {
      assert At(ArrayInput, 9) == Nul;
      FailsOnlyOnScanError(q);
    } else {
      ArrayAdvance(q);
      DriveStep(q);
      ArrayRest(ScanValue(q).parser);
    }
  }

  /** Each step of "[1, 2, 3]" before the end counts one more token of the
      expected kind and moves the cursor to the next expected position. */
  lemma ArrayAdvance(q: Parser)
    requires q.Valid() && q.json == ArrayInput
    requires 0 <= q.tokenCount < 4 && q.position == ArrayCursor(q.tokenCount)
    requires ArrayKindsSoFar(q)
    ensures var r := ScanValue(q).parser;
            && ScanValue(q).code == Success
            && r.json == ArrayInput
            && r.tokenCount == q.tokenCount + 1
            && r.position == ArrayCursor(r.tokenCount)
            && ArrayKindsSoFar(r)
  {
    if q.tokenCount == 0 {
      ArrayOpen(q);
    } else {
      ArrayElement(q);
    }
  }

  /** "[1, 2, 3]" parses to an array token and three number tokens; each
      number swallows the ',' or ']' after it. */
  lemma ArrayTest(p: Parser)
    ensures var r := Parse(Init(Some(p), Some(ArrayInput)));
            && r.Returned? && r.code == Success && r.after.Some?
            && r.after.value.tokenCount == 4
            && r.after.value.tokens[0].kind == Array
            && r.after.value.tokens[1].kind == Number
            && r.after.value.tokens[2].kind == Number
            && r.after.value.tokens[3].kind == Number
  {
    ArrayRest(Init(Some(p), Some(ArrayInput)).value);
  }

  // ---------------------------------------------------------------------
  // "{\"key\": 42}"

  const ObjectInput: string := "{\"key\": 42}"

  /** After the key, the cursor sits on ':', which no branch accepts. */
  lemma ObjectAfterKey(q: Parser)
    requires q.Valid() && q.json == ObjectInput
    requires q.position == 6 && q.tokenCount == 2
    ensures Drive(q) == Returned(ParsingFailed, Some(q))
  {
    assert SkipWhitespace(ObjectInput, 6) == 6;
    ClosersAreSyntaxErrors(q);
  }

  /** After '{', the key is scanned as a String from its opening quote at 1
      to its closing quote at 5. */
  lemma ObjectAfterBrace(q: Parser)
    requires q.Valid() && q.json == ObjectInput
    requires q.position == 1 && q.tokenCount == 1
    ensures Drive(q).Returned? && Drive(q).code == ParsingFailed
    ensures var a := Drive(q).after.value;
            && a.tokenCount == 2 && a.position == 6
            && a.tokens[0] == q.tokens[0]
            && a.tokens[1] == Token(String, 5, 4)
  {
    var s := ObjectInput;
    assert SkipWhitespace(s, 1) == 1;
    assert StringEnd(s, 5) == 5;
    assert StringEnd(s, 4) == 5;
    assert StringEnd(s, 3) == 5;
    assert StringEnd(s, 2) == 5;
    StringStep(q);
    DriveStep(q);
    ObjectAfterKey(ScanValue(q).parser);
  }

  /** `{"key": 42}` does not parse: after Object and the key String, the ':'
      is a syntax error and the call returns ParsingFailed. The library's own
      test expects Success with an Object and a Number. */
  lemma SimpleObjectTest(p: Parser)
    ensures var r := Parse(Init(Some(p), Some(ObjectInput)));
            && r.Returned? && r.code == ParsingFailed && r.after.Some?
            && r.after.value.tokenCount == 2
            && r.after.value.tokens[0].kind == Object
            && r.after.value.tokens[1] == Token(String, 5, 4)
  {
    var p0 := Init(Some(p), Some(ObjectInput)).value;
    assert SkipWhitespace(ObjectInput, 0) == 0;
    SingleCharacterTokens(p0);
    DriveStep(p0);
    ObjectAfterBrace(ScanValue(p0).parser);
  }

  // ---------------------------------------------------------------------
  // "{key: 42}"

  const UnquotedKeyInput: string := "{key: 42}"

  /** `{key: 42}` fails: the 'k' after '{' begins no token. */
  lemma InvalidJsonTest(p: Parser)
    ensures var r := Parse(Init(Some(p), Some(UnquotedKeyInput)));
            && r.Returned? && r.code == ParsingFailed && r.after.Some?
            && r.after.value.tokenCount == 1
            && r.after.value.tokens[0].kind == Object
            && r.after.value.position == 1
  {
    var s := UnquotedKeyInput;
    var p0 := Init(Some(p), Some(s)).value;
    assert SkipWhitespace(s, 0) == 0;
    SingleCharacterTokens(p0);
    DriveStep(p0);
    UnquotedKeyAfterBrace(ScanValue(p0).parser);
  }

  /** After '{', the cursor sits on 'k', which begins no token. */
  lemma UnquotedKeyAfterBrace(q: Parser)
    requires q.Valid() && q.json == UnquotedKeyInput
    requires q.position == 1 && q.tokenCount == 1
    ensures Drive(q) == Returned(ParsingFailed, Some(q))
  {
    var s := UnquotedKeyInput;
    assert SkipWhitespace(s, 1) == 1;
    LiteralHeads(s, 1);
    assert NoTokenAt(s, 1);
    UnrecognisedIsSyntaxError(q);
  }

  // ---------------------------------------------------------------------
  // Numbers at the terminator

  /** "1." is BadNumber in the scanner; the slot already says Number but is
      not counted, and the driver reports ParsingFailed. */
  lemma TrailingDotTest(p: Parser)
    ensures var p0 := Init(Some(p), Some("1.")).value;
            var st := ScanValue(p0);
            && st.code == BadNumber
            && st.parser.tokenCount == 0
            && st.parser.tokens[0].kind == Number
            && st.parser.position == 2
            && Parse(Some(p0)) == Returned(ParsingFailed, Some(st.parser))
  {
  }

  /** A number that ends at the terminator swallows the terminator, and the
      loop test then reads the character after it. */
  lemma BareNumberOverruns(p: Parser)
    ensures var r := Parse(Init(Some(p), Some("42")));
            && r.Overrun?
            && r.stuck.position == 3
            && r.stuck.tokenCount == 1
            && r.stuck.tokens[0] == Token(Number, 2, 2)
  {
    var s := "42";
    var p0 := Init(Some(p), Some(s)).value;
    assert SkipWhitespace(s, 0) == 0;
    assert NumberEnd(s, 2) == 2;
    assert NumberEnd(s, 1) == 2;
    NumberStep(p0);
    DriveStep(p0);
  }

  /** An unterminated string is no error for the scanner: it ends at the
      terminator, and the loop test then reads past it. */
  lemma UnterminatedStringOverruns(p: Parser)
    ensures var r := Parse(Init(Some(p), Some("\"abc")));
            && r.Overrun?
            && r.stuck.position == 5
            && r.stuck.tokenCount == 1
            && r.stuck.tokens[0] == Token(String, 4, 4)
  {
    var s := "\"abc";
    var p0 := Init(Some(p), Some(s)).value;
    assert SkipWhitespace(s, 0) == 0;
    assert StringEnd(s, 4) == 4;
    assert StringEnd(s, 3) == 4;
    assert StringEnd(s, 2) == 4;
    assert StringEnd(s, 1) == 4;
    StringStep(p0);
    DriveStep(p0);
  }

  // ---------------------------------------------------------------------
  // Capacity

  /** The smaller of two integers. */
  function Min(a: int, b: int): int
  {
    if a < b then a else b
  }

  /** On a buffer of '[' characters each step adds one Array token, until
      the terminator or a full table stops the loop. */
  lemma {:induction false} OpenersRest(q: Parser)
    requires q.Valid()
    requires forall m | 0 <= m < |q.json| :: q.json[m] == '['
    requires q.position == q.tokenCount <= |q.json|
    ensures Drive(q).Returned? && Drive(q).code == Success
    ensures Drive(q).after.value.tokenCount == Min(|q.json|, MaxTokens)
    ensures Drive(q).after.value.position == Min(|q.json|, MaxTokens)
    decreases MaxTokens - q.tokenCount
  {
    if q.position < |q.json| && q.tokenCount < MaxTokens {
      assert Lookahead(q) == q.position by {
        assert SkipWhitespace(q.json, q.position) == q.position;
      }
      SingleCharacterTokens(q);
      DriveStep(q);
      OpenersRest(ScanValue(q).parser);
    }
  }

  /** A full table ends the loop with Success although input remains: 33 or
      more '[' characters yield exactly 32 tokens and the rest is never
      looked at. */
  lemma SilentTruncation(p: Parser, s: string)
    requires IsBuffer(s) && |s| > MaxTokens
    requires forall m | 0 <= m < |s| :: s[m] == '['
    ensures var r := Parse(Init(Some(p), Some(s)));
            && r.Returned? && r.code == Success && r.after.Some?
            && r.after.value.tokenCount == MaxTokens
            && r.after.value.position < |s|
  {
    OpenersRest(Init(Some(p), Some(s)).value);
  }

  // ---------------------------------------------------------------------
  // String length

  /** A quoted string with no quote inside scans as one String token whose
      length is its content length plus one, however long the content: the
      declared MaxStringLen is never consulted. */
  lemma StringLengthUnchecked(p: Parser, content: string)
    requires IsBuffer(content) && |content| + 2 < 0x1_0000
    requires '"' !in content
    ensures var s := "\"" + content + "\"";
            var r := Parse(Init(Some(p), Some(s)));
            && r.Returned? && r.code == Success && r.after.Some?
            && r.after.value.tokenCount == 1
            && r.after.value.tokens[0] == Token(String, |content| + 1, |content| + 1)
  {
    var s := "\"" + content + "\"";
    var n := |content| + 1;
    assert Nul !in s by {
      forall m | 0 <= m < |s| ensures s[m] != Nul {
        if 0 < m < n { assert s[m] == content[m - 1]; }
      }
    }
    var p0 := Init(Some(p), Some(s)).value;
    assert Lookahead(p0) == 0 by {
      assert SkipWhitespace(s, 0) == 0;
    }
    var q := StringEnd(s, 1);
    assert s[n] == '"';
    forall m | 1 <= m < n ensures s[m] != '"' {
      assert s[m] == content[m - 1] && content[m - 1] in content;
    }
    StringStep(p0);
    DriveStep(p0);
  }
}

=== FILE: wrappers.dfy ===
/** Optional values, standing in for C pointers that may be NULL. */
module Wrappers {

  datatype Option<+T> = None | Some(value: T)
}
